=== FILE: README.md ===
# Lamport clock worker, modelled in Dafny

This project models one worker node of a small Lamport logical-clock simulation, written in Python. Each worker
keeps a logical clock. It exchanges `{pid, clock}` messages with its peers and logs every event to a central
monitor. The model keeps the node's exact transition rules and proves the properties the protocol rests on.

Modules, one per component of `worker.py`:

- `Wrappers`: `Option` and `Result`.
- `LamportClock`: the clock (`increment`, `update`, `get_time`), and runs of clock calls.
- `Text`: decimal text of integers as Python's `str` writes it, plus a reader that undoes it.
- `EventLog`: the log line `Processo <id> | Clock: <t> | <text>`, a parser that reads it back, and the
  monitor-forwarding policy of `log`.
- `Config`: the node's own entry and its peer table, as the constructor derives them from the worker list.
- `Worker`: the node and its steps: construction, `handle_peer_message`, `send_message`, the internal event,
  one iteration of the `run` loop, the start-up line and shutdown.
- `Network`: several workers with messages in flight and a trace of timestamped events. It proves Lamport's
  clock condition: if one event happened before another, its timestamp is strictly smaller.

Each clock call runs under the clock's lock in the source, so each is one atomic step here. Everything
outside the node is a parameter:

- the peer `random.choice` makes is an index `choice`;
- whether the connect-and-send to that peer worked is a `Transmission`;
- how the monitor connection answers the sends and the reconnect is a `SinkReplies`;
- what a connection delivered, after JSON decoding, is a `Payload`.

Behaviour of `worker.py` worth noting:

- An empty payload is ignored silently (`if data:`). Nothing is printed and nothing is logged for it.
- A malformed payload produces one printed error line, `[Processo <id>] Erro ao processar mensagem: <e>`. This
  line is printed, not logged: it carries no clock stamp and is never forwarded to the monitor.
- A monitor socket that is gone (`None`) is never re-created by `log`. Reconnection is only tried after a send
  on an existing socket fails (`NoSocketIsFinal`).
- On shutdown the socket is closed but kept. A later `log` call therefore fails its first send and reconnects.
- With two workers at clock 0, a send carries 1, the receiver merges it to 2, and a following internal event
  gives 3 (`TwoWorkerScenario`).

## Model

| member | source | states |
|---|---|---|
| `LamportClock.Increment` | worker.py:13-16 | the clock advances by exactly one and the new value is returned |
| `LamportClock.GetTime` | worker.py:23-25 | the current value is returned and the clock is unchanged |
| `LamportClock.Update` | worker.py:18-21 | the merged value is above both the old value and the received one, and is the least such integer (one more than one of them); it is also the value returned |
| `LamportClock.IncrementIsUpdateWithOlder` | worker.py:13-21 | `increment` is exactly the merge with any received value not ahead of the clock |
| `LamportClock.ReturnsCurrentValue` | worker.py:13-25 | every clock call returns the value the clock holds after it; a call leaves the clock unchanged exactly when it is `get_time` |
| `LamportClock.RunAdvances` | worker.py:13-21 | over any sequence of calls the clock grows by at least the number of `increment`/`update` calls, and is unchanged exactly when there were none |
| `LamportClock.RunMonotone` | worker.py:13-25 | the clock value is non-decreasing along any sequence of calls |
| `LamportClock.RunExceedsReceived` | worker.py:18-21 | once a received value is merged, the clock stays strictly above it for the rest of the run |
| `Text.ReadIntToString` | worker.py:57 | the decimal text of an id or clock value is read back exactly, whatever non-digit text follows it |
| `Text.ReadIntInverse` | worker.py:57 | the reader accepts only the text `str` writes for an integer (no leading zeros, no `-0`) followed by non-digit text |
| `EventLog.ParseFormatLine` | worker.py:57 | a formatted log line can be read back into the node id, the clock value and the text that made it |
| `EventLog.ParseLineExact` | worker.py:57 | a line parses to a given (id, clock, text) exactly when it is the line formatted from them, so every contract stated through the parser fixes the printed text |
| `EventLog.FormatLineInjective` | worker.py:57 | two log lines are equal only when node id, clock value and text are all equal |
| `EventLog.Forward` | worker.py:60-70 | no attempt without a socket; otherwise one send, and on failure one reconnect and, only if it succeeds, one more send; the line arrives exactly when one of the sends works; a failed reconnect leaves no socket, and a socket that needed no reconnect is left as it was; nothing is raised to the caller |
| `EventLog.Log` | worker.py:55-70 | the printed line is exactly the one formatted from the node id, the current clock and the text (`Processo <id>`, the `Clock:` field, the text); the monitor receives that line plus a newline exactly when forwarding delivers it, and nothing else |
| `EventLog.NoSocketIsFinal` | worker.py:47-70 | once the monitor socket is gone, no later `log` call attempts a send or delivers a line |
| `EventLog.ForwardingIsBounded` | worker.py:60-70 | over `n` log calls at most `2n` sends are attempted and at most `n` lines delivered |
| `Config.FindSelf` | worker.py:37-39 | the lookup fails exactly when no worker entry has the node's id; otherwise it finds an entry with that id |
| `Config.FindSelfIsFirst` | worker.py:37 | the entry found is the first one carrying the id |
| `Config.Peers` | worker.py:41 | a worker entry is a peer exactly when it is configured and its id differs from the node's |
| `Config.PeersOfConcat` | worker.py:41 | the peer table keeps configuration order: peers of a concatenation are the concatenated peers |
| `Config.PeersExcludeSelf` | worker.py:41 | no peer carries the node's id, and when the node is listed its peer table is strictly shorter than the list |
| `Worker.NewWorker` | worker.py:28-45 | construction fails with the not-found error exactly when the id is unlisted; otherwise its own entry is the first one with the id, the node starts at clock 0, never lists itself as a peer, has every other entry as a peer, and has a monitor socket exactly when the first connection succeeded |
| `Worker.Emit` | worker.py:55-70 | logging prints one line stamped with the node's current clock, changes nothing but the monitor socket, which ends as forwarding leaves it, and the monitor receives that line plus a newline exactly when forwarding delivers it |
| `Worker.HandlePeerMessage` | worker.py:89-102 | a decoded message with both keys raises the clock above its old value and above the message's clock (by the merge rule) and logs the receipt; an empty payload changes nothing and prints nothing; a malformed one or a missing key changes nothing, forwards nothing, and prints the one unstamped error line, with the decoder's error text or the `'clock'` key error (checked first) or else the `'pid'` one |
| `Worker.SendMessage` | worker.py:104-121 | with no peers nothing happens; otherwise the clock rises by exactly one whether or not the transmission works, a message leaves exactly when it works, goes to the chosen peer (never the node itself), and carries the node's id and the incremented clock; the log line names the peer |
| `Worker.InternalEvent` | worker.py:136-138 | an internal event raises the clock by one and logs `EVENTO INTERNO` with the new value |
| `Worker.ActivityStep` | worker.py:131-140 | one loop iteration moves the clock by exactly one, or by zero for a send with no peers; only a send emits a message, carrying the new clock to a peer |
| `Worker.Start` | worker.py:128 | the start-up line is logged with the current clock; no message is sent and nothing but the monitor socket changes |
| `Worker.Shutdown` | worker.py:142-146 | shutdown stops the loop, logs the shutdown line with the unchanged clock, sends no message, then leaves the monitor socket closed (or absent); nothing else about the node changes |
| `Worker.StoppedNodeDoesNotAct` | worker.py:130-146 | after shutdown the node takes no further loop action |
| `Worker.RunNodeAdvances` | worker.py:123-140 | over any run the node keeps its id and peers, stays valid, and its clock never decreases, growing by at least one per ticking step |
| `Worker.ScenarioConstruction` | worker.py:37-41 | with two configured workers each one starts at clock 0 with the other as its only peer |
| `Worker.TwoWorkerScenario` | worker.py:89-138 | a send from clock 0 carries 1, the receiver merges it to 2, and a following internal event gives 3 |
| `Network.ReceiverPassesSender` | worker.py:89-121 | a delivered message carries the timestamp of its send event, and leaves the receiver's clock at least one above it |
| `Network.RunPreservesInv` | worker.py:89-140 | every reachable system keeps event stamps at or below their node's clock, messages stamped with their send event, and every direct causal step strictly increasing |
| `Network.ChainIncreases` | worker.py:89-140 | timestamps strictly increase along every causal chain of events |
| `Network.ClockCondition` | worker.py:89-140 | Lamport's clock condition: in every reachable system, if event `a` happened before event `b` then `a` is earlier in the trace and its timestamp is strictly smaller |

## Left out

- Sockets are not modelled: `accept`, `recv(1024)`, `sendall`, `settimeout`, the accept loop (worker.py:72-87) and
  its error print. Their results are parameters. A delivery is a node processing one `Payload`.
- The 1024-byte read limit is not modelled. A longer message would be truncated and then fail to decode, which
  the model can only express as a `Garbled` payload.
- Threads, the lock and interleavings are not modelled; each clock call is one atomic step. Under real
  concurrency a receipt could land between the send's increment and its `get_time` (worker.py:115). The message
  would then carry a larger value than the post-increment one.
- `random.choice`, `random.uniform` and `time.sleep` become the `choice`/`action` parameters. The sleep's
  floating-point interval is not modelled.
- JSON is not modelled. `Delivered` assumes that decoding a sent message gives back its `clock` and `pid`.
- Non-integer JSON values are not modelled: a string `clock` makes `max` raise, which leaves the clock unchanged
  and so is covered by `Garbled`; a float `clock` would make the clock a float; a non-integer `pid` is only
  formatted. The model's payload fields are integers.
- Reading the config file (worker.py:34-35) is not modelled; the worker list is a parameter.
- The diagnostic printed when the monitor connection fails (worker.py:52) is not modelled.
- Encoding lines to UTF-8 bytes is not modelled; lines are strings.
- A `close()` that raises after a successful `sendall` (worker.py:117) is not modelled. It would be logged as a
  failed send although the message left.
- Worker.CanTake: the start-up line and shutdown are allowed any number of times and in any order, while `run`
  logs start-up once before its loop and shuts down once. This over-approximates the source; every property
  proved about runs holds for these extra orders too.
- Worker.NewWorker: the initial monitor connection (worker.py:44-45) is reduced to a boolean.
- Network: only messages some worker sent are delivered. Records forged by outside programs are left out, while
  empty and malformed payloads are kept as `Local` receive steps.
- Network: a node may still receive after shutdown. This over-approximates in-flight handlers finishing, and the
  clock condition holds regardless.
- `monitor.py` and `run_simulation.py` are not modelled; they are socket and process plumbing.

=== FILE: config.dfy ===
/**
 * The worker list a node is configured with, and the two things its
 * constructor derives from it: the node's own entry and its peer table.
 */
module Config {
  import opened Wrappers

  /** One entry of the `workers` list: a node id and the address it listens on. */
  datatype WorkerEntry = WorkerEntry(id: int, host: string, port: int)

  /** Some entry of `workers` carries the id `pid`. */
  predicate Listed(workers: seq<WorkerEntry>, pid: int) {
    exists k :: 0 <= k < |workers| && workers[k].id == pid
  }

  /**
   * The node's own entry: the first entry whose id is `pid`, or `None` when
   * there is none (the source's `next(..., None)`).
   */
  function FindSelf(workers: seq<WorkerEntry>, pid: int): (r: Option<WorkerEntry>)
    ensures r.None? <==> !Listed(workers, pid)
    ensures r.Some? ==> r.value.id == pid && r.value in workers
    decreases |workers|
  {
    if |workers| == 0 then None
    else if workers[0].id == pid then Some(workers[0])
    else
      assert Listed(workers, pid) ==> Listed(workers[1..], pid) by {
        if Listed(workers, pid) {
          var k :| 0 <= k < |workers| && workers[k].id == pid;
          assert workers[1..][k - 1].id == pid;
        }
      }
      FindSelf(workers[1..], pid)
  }

  /** The entry found is the first one carrying the id: no earlier entry has it. */
  lemma {:induction false} FindSelfIsFirst(workers: seq<WorkerEntry>, pid: int, k: nat)
    requires k < |workers| && workers[k].id == pid
    requires forall j :: 0 <= j < k ==> workers[j].id != pid
    ensures FindSelf(workers, pid) == Some(workers[k])
    decreases k
  {
    if k > 0 {
      assert workers[0].id != pid;
      FindSelfIsFirst(workers[1..], pid, k - 1);
    }
  }

  /** The peer table: every entry whose id is not `pid`, in configuration order. */
  function Peers(workers: seq<WorkerEntry>, pid: int): (r: seq<WorkerEntry>)
    ensures |r| <= |workers|
    ensures forall w :: w in r <==> w in workers && w.id != pid
    decreases |workers|
  {
    if |workers| == 0 then []
    else
      var rest := Peers(workers[1..], pid);
      assert forall w :: w in workers <==> w == workers[0] || w in workers[1..];
      if workers[0].id != pid then [workers[0]] + rest else rest
  }

  /** Filtering keeps the order: the peers of a concatenation are the concatenated peers. */
  lemma {:induction false} PeersOfConcat(a: seq<WorkerEntry>, b: seq<WorkerEntry>, pid: int)
    ensures Peers(a + b, pid) == Peers(a, pid) + Peers(b, pid)
    decreases |a|
  {
    if |a| == 0 {
      assert a + b == b;
    } else {
      assert (a + b)[1..] == a[1..] + b;
      PeersOfConcat(a[1..], b, pid);
    }
  }

  /** The node never appears in its own peer table, and when it is listed the table is strictly shorter. */
  lemma {:induction false} PeersExcludeSelf(workers: seq<WorkerEntry>, pid: int)
    ensures forall k :: 0 <= k < |Peers(workers, pid)| ==> Peers(workers, pid)[k].id != pid
    ensures Listed(workers, pid) ==> |Peers(workers, pid)| < |workers|
    decreases |workers|
  {
    if |workers| > 0 {
      PeersExcludeSelf(workers[1..], pid);
      if workers[0].id != pid && Listed(workers, pid) {
        var k :| 0 <= k < |workers| && workers[k].id == pid;
        assert workers[1..][k - 1].id == pid;
      }
    }
  }
}

=== FILE: event_log.dfy ===
/**
 * The worker's `log`: it stamps a line with the node id and the current clock
 * value, prints it locally, and forwards it to the central monitor when a
 * monitor socket exists, reconnecting at most once on failure.
 */
module EventLog {
  import opened Wrappers
  import opened Text
  import opened LamportClock

  const ProcessPrefix: string := "Processo "
  const ClockSeparator: string := " | Clock: "
  const TextSeparator: string := " | "

  /** The three parts a log line is made of. */
  datatype Record = Record(pid: int, time: nat, text: string)

  /** The line `Processo <pid> | Clock: <time> | <text>`. */
  function FormatLine(pid: int, time: nat, text: string): string
  {
    ProcessPrefix + IntToString(pid) + ClockSeparator + NatToString(time) + TextSeparator + text
  }

  /** Reads a log line back into its parts; `None` for text not shaped like a log line. */
  function ParseLine(line: string): Option<Record>
  {
    match StripPrefix(ProcessPrefix, line)
    case None => None
    case Some(afterPrefix) => ParsePid(afterPrefix)
  }

  function ParsePid(s: string): Option<Record>
  {
    match ReadInt(s)
    case None => None
    case Some((pid, afterPid)) => ParseClockLabel(pid, afterPid)
  }

  function ParseClockLabel(pid: int, s: string): Option<Record>
  {
    match StripPrefix(ClockSeparator, s)
    case None => None
    case Some(afterLabel) => ParseTime(pid, afterLabel)
  }

  function ParseTime(pid: int, s: string): Option<Record>
  {
    match ReadNat(s)
    case None => None
    case Some((time, afterTime)) => ParseText(pid, time, afterTime)
  }

  function ParseText(pid: int, time: nat, s: string): Option<Record>
  {
    match StripPrefix(TextSeparator, s)
    case None => None
    case Some(text) => Some(Record(pid, time, text))
  }

  lemma StripPrefixOfConcat(p: string, rest: string)
    ensures StripPrefix(p, p + rest) == Some(rest)
  {
    assert p <= p + rest;
    assert (p + rest)[|p|..] == rest;
  }

  /** A formatted line can always be read back into the node id, clock value and text that made it. */
  lemma ParseFormatLine(pid: int, time: nat, text: string)
    ensures ParseLine(FormatLine(pid, time, text)) == Some(Record(pid, time, text))
  {
    var afterTime := TextSeparator + text;
    var afterLabel := NatToString(time) + afterTime;
    var afterPid := ClockSeparator + afterLabel;
    var afterPrefix := IntToString(pid) + afterPid;
    assert FormatLine(pid, time, text) == ProcessPrefix + afterPrefix;
    StripPrefixOfConcat(TextSeparator, text);
    assert ParseText(pid, time, afterTime) == Some(Record(pid, time, text));
    ReadNatToString(time, afterTime);
    assert ParseTime(pid, afterLabel) == Some(Record(pid, time, text));
    StripPrefixOfConcat(ClockSeparator, afterLabel);
    assert ParseClockLabel(pid, afterPid) == Some(Record(pid, time, text));
    ReadIntToString(pid, afterPid);
    assert ParsePid(afterPrefix) == Some(Record(pid, time, text));
    StripPrefixOfConcat(ProcessPrefix, afterPrefix);
  }

  lemma ParseTextInverse(pid: int, time: nat, s: string)
    requires ParseText(pid, time, s).Some?
    ensures ParseText(pid, time, s).value.pid == pid && ParseText(pid, time, s).value.time == time
    ensures s == TextSeparator + ParseText(pid, time, s).value.text
  {
  }

  lemma ParseTimeInverse(pid: int, s: string)
    requires ParseTime(pid, s).Some?
    ensures ParseTime(pid, s).value.pid == pid
    ensures s == NatToString(ParseTime(pid, s).value.time) + (TextSeparator + ParseTime(pid, s).value.text)
  {
    ReadNatInverse(s);
    var (time, afterTime) := ReadNat(s).value;
    ParseTextInverse(pid, time, afterTime);
  }

  lemma ParseClockLabelInverse(pid: int, s: string)
    requires ParseClockLabel(pid, s).Some?
    ensures
      var rec := ParseClockLabel(pid, s).value;
      rec.pid == pid && s == ClockSeparator + (NatToString(rec.time) + (TextSeparator + rec.text))
  {
    ParseTimeInverse(pid, StripPrefix(ClockSeparator, s).value);
  }

  lemma ParsePidInverse(s: string)
    requires ParsePid(s).Some?
    ensures
      var rec := ParsePid(s).value;
      s == IntToString(rec.pid) + (ClockSeparator + (NatToString(rec.time) + (TextSeparator + rec.text)))
  {
    ReadIntInverse(s);
    var (pid, afterPid) := ReadInt(s).value;
    ParseClockLabelInverse(pid, afterPid);
  }

  /** Whatever `ParseLine` accepts is exactly the line `FormatLine` writes for the parts it returns. */
  lemma ParseLineInverse(line: string)
    requires ParseLine(line).Some?
    ensures line == FormatLine(ParseLine(line).value.pid, ParseLine(line).value.time, ParseLine(line).value.text)
  {
    var rec := ParseLine(line).value;
    ParsePidInverse(StripPrefix(ProcessPrefix, line).value);
    Regroup(ProcessPrefix, IntToString(rec.pid), ClockSeparator, NatToString(rec.time), TextSeparator, rec.text);
  }

  lemma Regroup(a: string, b: string, c: string, d: string, e: string, f: string)
    ensures a + b + c + d + e + f == a + (b + (c + (d + (e + f))))
  {
  }

  /** A line parses to a record exactly when it is the line formatted from that record. */
  lemma ParseLineExact(line: string, rec: Record)
    ensures ParseLine(line) == Some(rec) <==> line == FormatLine(rec.pid, rec.time, rec.text)
  {
    ParseFormatLine(rec.pid, rec.time, rec.text);
    if ParseLine(line) == Some(rec) {
      ParseLineInverse(line);
    }
  }

  /** Distinct (node, clock, text) triples never produce the same line. */
  lemma FormatLineInjective(p1: int, t1: nat, x1: string, p2: int, t2: nat, x2: string)
    requires FormatLine(p1, t1, x1) == FormatLine(p2, t2, x2)
    ensures p1 == p2 && t1 == t2 && x1 == x2
  {
    ParseFormatLine(p1, t1, x1);
    ParseFormatLine(p2, t2, x2);
  }

  /**
   * The worker's `monitor_socket`: absent (`None` in the source), or a socket
   * object, which is `closed` once the worker has shut it down. A closed socket
   * object is still present, so sending on it is attempted and fails.
   */
  datatype Sink = NoSocket | Socket(closed: bool)

  /**
   * How the network answers the attempts one forward may make, in order: the
   * first `sendall`, the reconnect, and the retried `sendall`.
   */
  datatype SinkReplies = SinkReplies(firstSend: bool, reconnect: bool, retry: bool)

  /** The sink left behind, whether the line reached the monitor, and the attempts made. */
  datatype Forwarding = Forwarding(sink: Sink, delivered: bool, sends: nat, reconnects: nat)

  /**
   * The forwarding policy of `log`: nothing without a socket; otherwise one
   * send, and on its failure one reconnect followed, if it succeeds, by one
   * more send. A failed reconnect drops the socket; nothing is ever raised.
   */
  function Forward(sink: Sink, replies: SinkReplies): (r: Forwarding)
    ensures r.sends <= 2 && r.reconnects <= 1
    ensures sink.NoSocket? ==> r == Forwarding(NoSocket, false, 0, 0)
    ensures sink.Socket? ==> r.sends >= 1
    ensures r.reconnects == 1 <==> r.sends >= 1 && (sink.closed || !replies.firstSend)
    ensures r.sends == 2 <==> r.reconnects == 1 && replies.reconnect
    ensures r.delivered <==>
              sink.Socket? && ((!sink.closed && replies.firstSend) || (replies.reconnect && replies.retry))
    ensures r.sink.NoSocket? <==> sink.NoSocket? || (r.reconnects == 1 && !replies.reconnect)
    ensures r.sink.Socket? && r.reconnects == 1 ==> !r.sink.closed
    ensures r.reconnects == 0 ==> r.sink == sink
  {
    match sink
    case NoSocket => Forwarding(NoSocket, false, 0, 0)
    case Socket(closed) =>
      if !closed && replies.firstSend then Forwarding(sink, true, 1, 0)
      else if !replies.reconnect then Forwarding(NoSocket, false, 1, 1)
      else Forwarding(Socket(false), replies.retry, 2, 1)
  }

  /** What one `log` call emits: the printed line, the lines the monitor received, and the new sink. */
  datatype Emission = Emission(sink: Sink, local: string, remote: seq<string>)

  /**
   * `log(text)` for node `pid`: the timestamp is read with `get_time`, so the
   * clock is only read, never changed. The line is printed unconditionally and
   * reaches the monitor, newline-terminated, exactly when forwarding delivers it.
   */
  function Log(pid: int, clock: Clock, sink: Sink, text: string, replies: SinkReplies): (r: Emission)
    ensures r.local == FormatLine(pid, clock.value, text)
    ensures ParseLine(r.local) == Some(Record(pid, clock.value, text))
    ensures |r.remote| <= 1
    ensures r.remote == [] || r.remote == [r.local + "\n"]
    ensures |r.remote| == 1 <==> Forward(sink, replies).delivered
    ensures r.sink == Forward(sink, replies).sink
  {
    var line := FormatLine(pid, GetTime(clock).time, text);
    ParseFormatLine(pid, clock.value, text);
    var f := Forward(sink, replies);
    Emission(f.sink, line, if f.delivered then [line + "\n"] else [])
  }

  /** The sink after a series of forwards, and the lines delivered on the way. */
  function ForwardAll(sink: Sink, replies: seq<SinkReplies>): (r: (Sink, nat))
    decreases |replies|
  {
    if |replies| == 0 then (sink, 0)
    else
      var f := Forward(sink, replies[0]);
      var rest := ForwardAll(f.sink, replies[1..]);
      (rest.0, rest.1 + (if f.delivered then 1 else 0))
  }

  /** The total number of send attempts over a series of forwards. */
  function SendsAll(sink: Sink, replies: seq<SinkReplies>): nat
    decreases |replies|
  {
    if |replies| == 0 then 0
    else
      var f := Forward(sink, replies[0]);
      f.sends + SendsAll(f.sink, replies[1..])
  }

  /**
   * Once the socket is gone it is never re-created by logging: every later
   * `log` call makes no attempt and delivers nothing.
   */
  lemma {:induction false} NoSocketIsFinal(replies: seq<SinkReplies>)
    ensures ForwardAll(NoSocket, replies) == (NoSocket, 0)
    ensures SendsAll(NoSocket, replies) == 0
    decreases |replies|
  {
    if |replies| > 0 {
      NoSocketIsFinal(replies[1..]);
    }
  }

  /** Retrying is bounded: over `n` log calls at most `2 n` sends are attempted and at most `n` lines delivered. */
  lemma {:induction false} ForwardingIsBounded(sink: Sink, replies: seq<SinkReplies>)
    ensures SendsAll(sink, replies) <= 2 * |replies|
    ensures ForwardAll(sink, replies).1 <= |replies|
    decreases |replies|
  {
    if |replies| > 0 {
      ForwardingIsBounded(Forward(sink, replies[0]).sink, replies[1..]);
    }
  }
}

=== FILE: lamport_clock.dfy ===
/**
 * The Lamport logical clock of one worker: a single non-negative counter with
 * three operations, each atomic (the source guards each one with a lock, so
 * every call is modelled as one indivisible step).
 */
module LamportClock {

  /** The clock's state; a fresh clock holds 0. */
  datatype Clock = Clock(value: nat)

  const Initial: Clock := Clock(0)

  /** What one clock call leaves behind and what it returns to the caller. */
  datatype Reply = Reply(clock: Clock, time: nat)

  /** `increment`: a local event or a send; advances by one and returns the new value. */
  function Increment(c: Clock): (r: Reply)
    ensures r.time == r.clock.value
    ensures r.time == c.value + 1
  {
    var next := Clock(c.value + 1);
    Reply(next, next.value)
  }

  /**
   * `update(received)`: the happened-before merge on receipt. The new value is
   * the least integer strictly above both the old value and the received one,
   * and it is returned.
   */
  function Update(c: Clock, received: int): (r: Reply)
    ensures r.time == r.clock.value
    ensures r.time > c.value && r.time > received
    ensures r.time == c.value + 1 || r.time == received + 1
  {
    var next := Clock(if received <= c.value then c.value + 1 else received + 1);
    Reply(next, next.value)
  }

  /** `get_time`: reads the value and leaves the clock as it was. */
  function GetTime(c: Clock): (r: Reply)
    ensures r.clock == c
    ensures r.time == c.value
  {
    Reply(c, c.value)
  }

  /** The calls a caller can make on a clock. */
  datatype Op = Inc | Upd(received: int) | Get

  function Apply(c: Clock, op: Op): Reply
  {
    match op
    case Inc => Increment(c)
    case Upd(received) => Update(c, received)
    case Get => GetTime(c)
  }

  /** The clock after a sequence of calls, performed one after another. */
  function Run(c: Clock, ops: seq<Op>): Clock
    decreases |ops|
  {
    if |ops| == 0 then c else Run(Apply(c, ops[0]).clock, ops[1..])
  }

  /** The number of calls in `ops` that mutate the clock. */
  function Mutations(ops: seq<Op>): nat
    decreases |ops|
  {
    if |ops| == 0 then 0 else (if ops[0].Get? then 0 else 1) + Mutations(ops[1..])
  }

  /** Every call returns the value the clock holds once the call is over. */
  lemma ReturnsCurrentValue(c: Clock, op: Op)
    ensures Apply(c, op).time == Apply(c, op).clock.value
    ensures op.Get? <==> Apply(c, op).clock == c
  {
  }

  /** `increment` is the merge with any received value that is not ahead of the clock. */
  lemma IncrementIsUpdateWithOlder(c: Clock, received: int)
    requires received <= c.value
    ensures Update(c, received) == Increment(c)
  {
  }

  /**
   * Every mutating call advances the clock by at least one, so after a
   * sequence of calls the clock has grown by at least the number of mutating
   * calls, and it is unchanged exactly when no call mutated it.
   */
  lemma {:induction false} RunAdvances(c: Clock, ops: seq<Op>)
    ensures Run(c, ops).value >= c.value + Mutations(ops)
    ensures Run(c, ops) == c <==> Mutations(ops) == 0
    decreases |ops|
  {
    if |ops| > 0 {
      RunAdvances(Apply(c, ops[0]).clock, ops[1..]);
    }
  }

  /** Running a longer prefix never leaves a smaller clock: the value is non-decreasing. */
  lemma {:induction false} RunMonotone(c: Clock, ops: seq<Op>, i: nat, j: nat)
    requires i <= j <= |ops|
    ensures Run(c, ops[..i]).value <= Run(c, ops[..j]).value
    decreases i
  {
    if i == 0 {
      RunAdvances(c, ops[..j]);
    } else {
      var c1 := Apply(c, ops[0]).clock;
      assert ops[..i][1..] == ops[1..][..i - 1];
      assert ops[..j][1..] == ops[1..][..j - 1];
      RunMonotone(c1, ops[1..], i - 1, j - 1);
    }
  }

  /** Once a value has been merged in, the clock stays strictly above it for good. */
  lemma {:induction false} RunExceedsReceived(c: Clock, ops: seq<Op>, k: nat)
    requires k < |ops| && ops[k].Upd?
    ensures Run(c, ops).value > ops[k].received
    decreases k
  {
    if k == 0 {
      RunAdvances(Apply(c, ops[0]).clock, ops[1..]);
    } else {
      RunExceedsReceived(Apply(c, ops[0]).clock, ops[1..], k - 1);
    }
  }
}

=== FILE: network.dfy ===
/**
 * Several workers exchanging messages. Every clock-changing step is recorded
 * as an event stamped with the clock value it leaves (the value its log line
 * shows); messages in flight remember the event that sent them. The model
 * proves Lamport's clock condition: if one event happened before another,
 * its timestamp is strictly smaller.
 */
module Network {
  import opened Wrappers
  import opened LamportClock
  import opened EventLog
  import opened Config
  import opened Worker

  datatype EventKind = LocalEvent | SendEvent | ReceiveEvent(origin: nat)

  /** An event of node `node` (an index into the node list), stamped `time`. */
  datatype Event = Event(node: nat, kind: EventKind, time: nat)

  /** A message in flight to the worker listening at `to`, sent by event `origin`. */
  datatype Packet = Packet(to: WorkerEntry, msg: Message, origin: nat)

  datatype Global = Global(nodes: seq<Node>, inFlight: seq<Packet>, trace: seq<Event>)

  /** The system before anything has happened. */
  function Init(nodes: seq<Node>): Global {
    Global(nodes, [], [])
  }

  /**
   * A step of the whole system: a node acting on its own (an activity step,
   * start-up, shutdown, or a connection whose payload is empty or malformed),
   * or the delivery of in-flight message `k` to node `j`.
   */
  datatype Step =
    | Local(i: nat, step: NodeStep)
    | Deliver(k: nat, j: nat, replies: SinkReplies)

  predicate CanStep(g: Global, s: Step) {
    match s
    case Local(i, step) =>
      i < |g.nodes| && CanTake(g.nodes[i], step) && (step.Receive? ==> !WellFormed(step.payload))
    case Deliver(k, j, _) =>
      k < |g.inFlight| && j < |g.nodes| && g.nodes[j].self == g.inFlight[k].to
  }

  function Next(g: Global, s: Step): Global
    requires CanStep(g, s)
  {
    match s
    case Local(i, step) =>
      var o := Take(g.nodes[i], step);
      var kind := if step.Act? && step.action.Send? then SendEvent else LocalEvent;
      var trace := if Ticks(g.nodes[i], step) then g.trace + [Event(i, kind, o.node.clock.value)] else g.trace;
      var inFlight :=
        if o.sent.Some? then g.inFlight + [Packet(o.sent.value.to, o.sent.value.msg, |g.trace|)]
        else g.inFlight;
      Global(g.nodes[i := o.node], inFlight, trace)
    case Deliver(k, j, replies) =>
      var p := g.inFlight[k];
      var o := HandlePeerMessage(g.nodes[j], Delivered(p.msg), replies);
      Global(g.nodes[j := o.node],
             g.inFlight[..k] + g.inFlight[k + 1..],
             g.trace + [Event(j, ReceiveEvent(p.origin), o.node.clock.value)])
  }

  /** The system after a series of steps, or `None` if some step could not be taken. */
  function RunSystem(g: Global, steps: seq<Step>): Option<Global>
    decreases |steps|
  {
    if |steps| == 0 then Some(g)
    else if !CanStep(g, steps[0]) then None
    else RunSystem(Next(g, steps[0]), steps[1..])
  }

  /**
   * Event `b` directly follows event `a`: a later event of the same
   * node, or the receipt of the message `a` sent.
   */
  predicate Direct(t: seq<Event>, a: nat, b: nat) {
    a < b < |t| && (t[a].node == t[b].node || t[b].kind == ReceiveEvent(a))
  }

  /** `c` is a causal chain of events, each directly following the previous one. */
  predicate Chain(t: seq<Event>, c: seq<nat>) {
    && |c| >= 1
    && (forall m :: 0 <= m < |c| ==> c[m] < |t|)
    && (forall m :: 0 <= m < |c| - 1 ==> Direct(t, c[m], c[m + 1]))
  }

  /** Lamport's happened-before relation over the recorded events. */
  ghost predicate HappenedBefore(t: seq<Event>, a: nat, b: nat) {
    exists c :: Chain(t, c) && |c| >= 2 && c[0] == a && c[|c| - 1] == b
  }

  /** Each direct step of the trace goes to a strictly larger timestamp. */
  predicate DirectStepsIncrease(t: seq<Event>) {
    forall a, b :: 0 <= a < b < |t| && Direct(t, a, b) ==> t[a].time < t[b].time
  }

  /** Packet `p` was sent by a send event of the trace and carries that event's timestamp. */
  predicate PacketFromTrace(g: Global, p: Packet) {
    && p.origin < |g.trace|
    && g.trace[p.origin].node < |g.nodes|
    && g.trace[p.origin].kind.SendEvent?
    && p.msg.clock == g.trace[p.origin].time
    && p.msg.pid == g.nodes[g.trace[p.origin].node].id
  }

  /** Every event's node exists and its clock is at least the event's timestamp. */
  predicate EventsBelowClocks(g: Global) {
    forall e :: 0 <= e < |g.trace| ==>
      g.trace[e].node < |g.nodes| && g.trace[e].time <= g.nodes[g.trace[e].node].clock.value
  }

  /** The invariant of every reachable system. */
  predicate Inv(g: Global) {
    && EventsBelowClocks(g)
    && (forall p :: p in g.inFlight ==> PacketFromTrace(g, p))
    && DirectStepsIncrease(g.trace)
  }

  /** Replacing a node by one with the same id and a clock no smaller keeps the invariant. */
  lemma AdvanceNode(g: Global, i: nat, n: Node)
    requires Inv(g) && i < |g.nodes|
    requires n.id == g.nodes[i].id && n.clock.value >= g.nodes[i].clock.value
    ensures Inv(g.(nodes := g.nodes[i := n]))
  {
  }

  /**
   * Recording an event stamped with its node's current clock keeps the
   * invariant, provided the stamp exceeds the node's earlier events and, for a
   * receipt, the stamp of the send.
   */
  lemma RecordEvent(g: Global, e: Event)
    requires Inv(g) && e.node < |g.nodes|
    requires e.time == g.nodes[e.node].clock.value
    requires forall a :: 0 <= a < |g.trace| && g.trace[a].node == e.node ==> g.trace[a].time < e.time
    requires e.kind.ReceiveEvent? ==> e.kind.origin < |g.trace| && g.trace[e.kind.origin].time < e.time
    requires !e.kind.SendEvent?
    ensures Inv(g.(trace := g.trace + [e]))
  {
  }

  /** Recording a send event and, if the message left, its packet keeps the invariant. */
  lemma RecordSend(g: Global, e: Event, packets: seq<Packet>)
    requires Inv(g) && e.node < |g.nodes|
    requires e.time == g.nodes[e.node].clock.value
    requires forall a :: 0 <= a < |g.trace| && g.trace[a].node == e.node ==> g.trace[a].time < e.time
    requires e.kind.SendEvent?
    requires forall p :: p in packets ==>
               p.origin == |g.trace| && p.msg.clock == e.time && p.msg.pid == g.nodes[e.node].id
    ensures Inv(Global(g.nodes, g.inFlight + packets, g.trace + [e]))
  {
  }

  /** The events of a node carry stamps no larger than its clock. */
  lemma EventsOfNode(g: Global, i: nat)
    requires Inv(g) && i < |g.nodes|
    ensures forall a :: 0 <= a < |g.trace| && g.trace[a].node == i ==> g.trace[a].time <= g.nodes[i].clock.value
  {
  }

  /** What a local step does to the node's id, clock and outgoing message. */
  lemma TakeEffects(n: Node, step: NodeStep)
    requires CanTake(n, step) && (step.Receive? ==> !WellFormed(step.payload))
    ensures Take(n, step).node.id == n.id
    ensures Ticks(n, step) ==> Take(n, step).node.clock.value == n.clock.value + 1
    ensures !Ticks(n, step) ==> Take(n, step).node.clock == n.clock && Take(n, step).sent.None?
    ensures Take(n, step).sent.Some? ==>
              step.Act? && step.action.Send? &&
              Take(n, step).sent.value.msg == Message(n.id, Take(n, step).node.clock.value)
  {
  }

  /** The shape of the system after a local step. */
  lemma NextLocalShape(g: Global, i: nat, step: NodeStep)
    requires CanStep(g, Local(i, step))
    ensures
      var o := Take(g.nodes[i], step);
      var kind := if step.Act? && step.action.Send? then SendEvent else LocalEvent;
      var packets := if o.sent.Some? then [Packet(o.sent.value.to, o.sent.value.msg, |g.trace|)] else [];
      var trace := if Ticks(g.nodes[i], step) then g.trace + [Event(i, kind, o.node.clock.value)] else g.trace;
      Next(g, Local(i, step)) == Global(g.nodes[i := o.node], g.inFlight + packets, trace)
  {
  }

  lemma LocalPreservesInv(g: Global, i: nat, step: NodeStep)
    requires Inv(g) && CanStep(g, Local(i, step))
    ensures Inv(Next(g, Local(i, step)))
  {
    var n := g.nodes[i];
    var o := Take(n, step);
    TakeEffects(n, step);
    EventsOfNode(g, i);
    AdvanceNode(g, i, o.node);
    var g1 := g.(nodes := g.nodes[i := o.node]);
    var kind := if step.Act? && step.action.Send? then SendEvent else LocalEvent;
    var e := Event(i, kind, o.node.clock.value);
    var packets := if o.sent.Some? then [Packet(o.sent.value.to, o.sent.value.msg, |g.trace|)] else [];
    var trace := if Ticks(n, step) then g.trace + [e] else g.trace;
    NextLocalShape(g, i, step);
    if !Ticks(n, step) {
      assert g.inFlight + packets == g.inFlight;
    } else if kind.SendEvent? {
      RecordSend(g1, e, packets);
    } else {
      assert g.inFlight + packets == g.inFlight;
      RecordEvent(g1, e);
    }
  }

  lemma DeliverPreservesInv(g: Global, k: nat, j: nat, replies: SinkReplies)
    requires Inv(g) && CanStep(g, Deliver(k, j, replies))
    ensures Inv(Next(g, Deliver(k, j, replies)))
  {
    var p := g.inFlight[k];
    var n := g.nodes[j];
    var o := HandlePeerMessage(n, Delivered(p.msg), replies);
    assert PacketFromTrace(g, p);
    EventsOfNode(g, j);
    var g0 := g.(inFlight := g.inFlight[..k] + g.inFlight[k + 1..]);
    forall q | q in g0.inFlight
      ensures PacketFromTrace(g0, q)
    {
      assert q in g.inFlight;
    }
    AdvanceNode(g0, j, o.node);
    var g1 := g0.(nodes := g0.nodes[j := o.node]);
    RecordEvent(g1, Event(j, ReceiveEvent(p.origin), o.node.clock.value));
  }

  /** Every step keeps the invariant. */
  lemma NextPreservesInv(g: Global, s: Step)
    requires Inv(g) && CanStep(g, s)
    ensures Inv(Next(g, s))
  {
    match s
    case Local(i, step) => LocalPreservesInv(g, i, step);
    case Deliver(k, j, replies) => DeliverPreservesInv(g, k, j, replies);
  }

  /** Every run from a state satisfying the invariant ends in one satisfying it. */
  lemma {:induction false} RunPreservesInv(g: Global, steps: seq<Step>)
    requires Inv(g) && RunSystem(g, steps).Some?
    ensures Inv(RunSystem(g, steps).value)
    decreases |steps|
  {
    if |steps| > 0 {
      NextPreservesInv(g, steps[0]);
      RunPreservesInv(Next(g, steps[0]), steps[1..]);
    }
  }

  /** Timestamps strictly increase along any causal chain. */
  lemma {:induction false} ChainIncreases(t: seq<Event>, c: seq<nat>)
    requires DirectStepsIncrease(t)
    requires Chain(t, c) && |c| >= 2
    ensures t[c[0]].time < t[c[|c| - 1]].time
    decreases |c|
  {
    assert Direct(t, c[0], c[1]);
    if |c| > 2 {
      var c' := c[1..];
      assert Chain(t, c') by {
        forall m | 0 <= m < |c'| - 1 ensures Direct(t, c'[m], c'[m + 1]) {
          assert Direct(t, c[m + 1], c[m + 2]);
        }
      }
      ChainIncreases(t, c');
    }
  }

  /**
   * Lamport's clock condition: in every reachable system, if event `a`
   * happened before event `b`, then `a`'s timestamp is strictly smaller.
   */
  lemma ClockCondition(nodes: seq<Node>, steps: seq<Step>, a: nat, b: nat)
    requires RunSystem(Init(nodes), steps).Some?
    requires HappenedBefore(RunSystem(Init(nodes), steps).value.trace, a, b)
    ensures a < b < |RunSystem(Init(nodes), steps).value.trace|
    ensures RunSystem(Init(nodes), steps).value.trace[a].time < RunSystem(Init(nodes), steps).value.trace[b].time
  {
    var g := RunSystem(Init(nodes), steps).value;
    RunPreservesInv(Init(nodes), steps);
    var c :| Chain(g.trace, c) && |c| >= 2 && c[0] == a && c[|c| - 1] == b;
    ChainIncreases(g.trace, c);
    ChainMovesForward(g.trace, c);
  }

  /** A causal chain only goes forward in the trace. */
  lemma {:induction false} ChainMovesForward(t: seq<Event>, c: seq<nat>)
    requires Chain(t, c) && |c| >= 2
    ensures c[0] < c[|c| - 1] < |t|
    decreases |c|
  {
    assert Direct(t, c[0], c[1]);
    if |c| > 2 {
      var c' := c[1..];
      assert Chain(t, c') by {
        forall m | 0 <= m < |c'| - 1 ensures Direct(t, c'[m], c'[m + 1]) {
          assert Direct(t, c[m + 1], c[m + 2]);
        }
      }
      ChainMovesForward(t, c');
    }
  }

  /**
   * The receive bound across two nodes: delivering a message leaves the
   * receiver's clock above the timestamp of the send event that produced it.
   */
  lemma ReceiverPassesSender(g: Global, k: nat, j: nat, replies: SinkReplies)
    requires Inv(g) && CanStep(g, Deliver(k, j, replies))
    ensures g.inFlight[k].origin < |g.trace|
    ensures g.inFlight[k].msg.clock == g.trace[g.inFlight[k].origin].time
    ensures Next(g, Deliver(k, j, replies)).nodes[j].clock.value >= g.trace[g.inFlight[k].origin].time + 1
    ensures Next(g, Deliver(k, j, replies)).nodes[j].clock.value > g.nodes[j].clock.value
  {
    assert PacketFromTrace(g, g.inFlight[k]);
  }
}

=== FILE: text.dfy ===
/**
 * Decimal text for integers, as Python's `str(n)` writes it inside an
 * f-string: an optional `-` followed by digits without leading zeros.
 * `ReadInt` undoes `IntToString`, and accepts nothing else; `EventLog` uses
 * it to show the log line is unambiguous.
 */
module Text {
  import opened Wrappers

  predicate IsDigit(ch: char) {
    '0' <= ch <= '9'
  }

  predicate AllDigits(s: string) {
    forall i :: 0 <= i < |s| ==> IsDigit(s[i])
  }

  function DigitChar(d: nat): (ch: char)
    requires d < 10
    ensures IsDigit(ch)
  {
    ('0' as int + d) as char
  }

  function DigitValue(ch: char): nat
    requires IsDigit(ch)
  {
    ch as int - '0' as int
  }

  /** `str(n)` for a non-negative `n`: at least one digit, and no leading zero unless `n` is 0. */
  function NatToString(n: nat): (s: string)
    ensures |s| >= 1 && AllDigits(s)
    ensures s[0] == '0' ==> n == 0
    decreases n
  {
    if n < 10 then [DigitChar(n)] else NatToString(n / 10) + [DigitChar(n % 10)]
  }

  /** `str(i)` for any integer. */
  function IntToString(i: int): (s: string)
    ensures |s| >= 1
    ensures i < 0 <==> s[0] == '-'
  {
    if i < 0 then "-" + NatToString(-i) else NatToString(i)
  }

  /** The value of a string of decimal digits (0 for the empty string). */
  function ParseNat(s: string): nat
    requires AllDigits(s)
    decreases |s|
  {
    if |s| == 0 then 0 else ParseNat(s[..|s| - 1]) * 10 + DigitValue(s[|s| - 1])
  }

  /** The length of the longest run of digits that `s` starts with. */
  function SpanDigits(s: string): (k: nat)
    ensures k <= |s|
    ensures AllDigits(s[..k])
    ensures k == |s| || !IsDigit(s[k])
    decreases |s|
  {
    if |s| == 0 || !IsDigit(s[0]) then 0
    else
      var k := 1 + SpanDigits(s[1..]);
      assert s[..k] == [s[0]] + s[1..][..k - 1];
      k
  }

  /** `d` is decimal text as `str` writes it: digits, with no leading zero unless it is `0` itself. */
  predicate Canonical(d: string) {
    |d| >= 1 && AllDigits(d) && (d[0] == '0' ==> |d| == 1)
  }

  /**
   * Reads a non-negative decimal number off the front of `s`; `None` when `s`
   * does not start with a digit or the digits have a leading zero.
   */
  function ReadNat(s: string): Option<(nat, string)>
  {
    var k := SpanDigits(s);
    if k == 0 || (k > 1 && s[0] == '0') then None else Some((ParseNat(s[..k]), s[k..]))
  }

  /** Reads an optionally negative decimal number off the front of `s`; `-0` is refused. */
  function ReadInt(s: string): Option<(int, string)>
  {
    if |s| > 0 && s[0] == '-' then
      match ReadNat(s[1..])
      case None => None
      case Some((n, rest)) => if n == 0 then None else Some((-(n as int), rest))
    else
      match ReadNat(s)
      case None => None
      case Some((n, rest)) => Some((n as int, rest))
  }

  /** `s` with the prefix `p` removed, or `None` when `s` does not start with `p`. */
  function StripPrefix(p: string, s: string): (r: Option<string>)
    ensures r.Some? <==> p <= s
    ensures r.Some? ==> s == p + r.value
  {
    if p <= s then Some(s[|p|..]) else None
  }

  /** Text that cannot be mistaken for the continuation of a number. */
  predicate StopsNumber(rest: string) {
    |rest| == 0 || !IsDigit(rest[0])
  }

  /** Parsing the decimal text of `n` gives `n` back. */
  lemma {:induction false} ParseNatToString(n: nat)
    ensures ParseNat(NatToString(n)) == n
    decreases n
  {
    if n >= 10 {
      var s := NatToString(n);
      assert s[..|s| - 1] == NatToString(n / 10);
      ParseNatToString(n / 10);
    }
  }

  /** The digit run of `d + rest` is exactly `d` when `rest` does not continue it. */
  lemma {:induction false} SpanOfDigitsThenStop(d: string, rest: string)
    requires AllDigits(d)
    requires StopsNumber(rest)
    ensures SpanDigits(d + rest) == |d|
    decreases |d|
  {
    if |d| > 0 {
      assert (d + rest)[1..] == d[1..] + rest;
      SpanOfDigitsThenStop(d[1..], rest);
    } else {
      assert d + rest == rest;
    }
  }

  /** `ReadNat` undoes `NatToString` and hands back whatever follows. */
  lemma ReadNatToString(n: nat, rest: string)
    requires StopsNumber(rest)
    ensures ReadNat(NatToString(n) + rest) == Some((n, rest))
  {
    var d := NatToString(n);
    SpanOfDigitsThenStop(d, rest);
    assert (d + rest)[..|d|] == d;
    assert (d + rest)[|d|..] == rest;
    ParseNatToString(n);
  }

  /** `ReadInt` undoes `IntToString` and hands back whatever follows. */
  lemma ReadIntToString(i: int, rest: string)
    requires StopsNumber(rest)
    ensures ReadInt(IntToString(i) + rest) == Some((i, rest))
  {
    if i < 0 {
      var d := NatToString(-i);
      var s := "-" + d + rest;
      assert IntToString(i) + rest == s;
      assert s[0] == '-';
      assert s[1..] == d + rest;
      ReadNatToString(-i, rest);
    } else {
      var d := NatToString(i);
      assert IntToString(i) + rest == d + rest;
      assert (d + rest)[0] == d[0];
      ReadNatToString(i, rest);
    }
  }

  /** Canonical text that does not start with `0` denotes a positive number. */
  lemma {:induction false} ParseNatPositive(d: string)
    requires AllDigits(d) && |d| >= 1 && d[0] != '0'
    ensures ParseNat(d) > 0
    decreases |d|
  {
    if |d| > 1 {
      ParseNatPositive(d[..|d| - 1]);
    }
  }

  /** Canonical decimal text is exactly the text `str` writes for its value. */
  lemma {:induction false} NatToStringParseNat(d: string)
    requires Canonical(d)
    ensures NatToString(ParseNat(d)) == d
    decreases |d|
  {
    var c := d[|d| - 1];
    if |d| > 1 {
      var front := d[..|d| - 1];
      assert front[0] == d[0];
      ParseNatPositive(front);
      NatToStringParseNat(front);
      var n := ParseNat(d);
      assert n / 10 == ParseNat(front) && n % 10 == DigitValue(c);
      assert d == front + [c];
    }
  }

  /** Whatever `ReadNat` accepts is the decimal text of the number it returns, followed by the rest. */
  lemma ReadNatInverse(s: string)
    requires ReadNat(s).Some?
    ensures s == NatToString(ReadNat(s).value.0) + ReadNat(s).value.1
    ensures StopsNumber(ReadNat(s).value.1)
  {
    var k := SpanDigits(s);
    assert Canonical(s[..k]);
    NatToStringParseNat(s[..k]);
    assert s == s[..k] + s[k..];
  }

  /** Whatever `ReadInt` accepts is the decimal text of the integer it returns, followed by the rest. */
  lemma ReadIntInverse(s: string)
    requires ReadInt(s).Some?
    ensures s == IntToString(ReadInt(s).value.0) + ReadInt(s).value.1
    ensures StopsNumber(ReadInt(s).value.1)
  {
    if |s| > 0 && s[0] == '-' {
      ReadNatInverse(s[1..]);
      assert s == "-" + s[1..];
    } else {
      ReadNatInverse(s);
    }
  }
}

=== FILE: worker.dfy ===
/**
 * One worker node: construction from the configuration, the receive handler,
 * the send, the activity step of the main loop, and start-up and shutdown.
 * Each clock call is one atomic step; every operation is a pure transition
 * from a node to an `Outcome`.
 */
module Worker {
  import opened Wrappers
  import opened Text
  import opened LamportClock
  import opened EventLog
  import opened Config

  /** The only payload peers exchange: the sender's id and its clock value. */
  datatype Message = Message(pid: int, clock: int)

  /**
   * What the receive handler gets from one connection: nothing, bytes that
   * could not be read or decoded (with the error's text), or a decoded object
   * whose `clock` and `pid` keys may each be missing.
   */
  datatype Payload = Empty | Garbled(reason: string) | Fields(clock: Option<int>, pid: Option<int>)

  /** The payload decodes to an object holding both keys. */
  predicate WellFormed(p: Payload) {
    p.Fields? && p.clock.Some? && p.pid.Some?
  }

  /** What the receiver decodes from the bytes a sender wrote for `m`. */
  function Delivered(m: Message): (p: Payload)
    ensures WellFormed(p) && p.clock.value == m.clock && p.pid.value == m.pid
  {
    Fields(Some(m.clock), Some(m.pid))
  }

  /** How the connect-and-send to a peer ended. */
  datatype Transmission = Transmitted | Refused(reason: string)

  /** A message on its way to a peer. */
  datatype Envelope = Envelope(to: WorkerEntry, msg: Message)

  datatype Node = Node(
    id: int,
    clock: Clock,
    self: WorkerEntry,
    peers: seq<WorkerEntry>,
    sink: Sink,
    running: bool)

  /** The node's entry is its own and no peer carries its id. */
  predicate Valid(n: Node) {
    && n.self.id == n.id
    && forall k :: 0 <= k < |n.peers| ==> n.peers[k].id != n.id
  }

  /** The node after a step, the lines it printed, the lines the monitor received, and the message it sent. */
  datatype Outcome = Outcome(node: Node, local: seq<string>, remote: seq<string>, sent: Option<Envelope>)

  const StartedText: string := "Iniciado"
  const InternalText: string := "EVENTO INTERNO"
  const ShutdownText: string := "Encerrando..."

  function ReceivedText(sender: int, clock: int): string {
    "RECEBIDO de Processo " + IntToString(sender) + " (Clock msg: " + IntToString(clock) + ")"
  }

  function SentText(target: int): string {
    "ENVIADO para Processo " + IntToString(target)
  }

  function FailedText(target: int, reason: string): string {
    "FALHA ao enviar para Processo " + IntToString(target) + ": " + reason
  }

  /** The error printed (not logged) when a received payload cannot be processed. */
  function ErrorLine(pid: int, reason: string): string {
    "[Processo " + IntToString(pid) + "] Erro ao processar mensagem: " + reason
  }

  /** The text of a `KeyError` for a missing key, as Python prints it. */
  function MissingKey(key: string): string {
    "'" + key + "'"
  }

  function NotFoundText(pid: int): string {
    "ID " + IntToString(pid) + " não encontrado na configuração."
  }

  /**
   * The constructor: fails when no worker entry has the node's id; otherwise
   * the node starts at clock 0 with every other entry as a peer, and with a
   * monitor socket exactly when the first connection to the monitor succeeded.
   */
  function NewWorker(pid: int, workers: seq<WorkerEntry>, monitorUp: bool): (r: Result<Node, string>)
    ensures r.Failure? <==> !Listed(workers, pid)
    ensures r.Failure? ==> r.error == NotFoundText(pid)
    ensures r.Success? ==>
              && Valid(r.value)
              && r.value.id == pid
              && r.value.clock == Initial
              && FindSelf(workers, pid) == Some(r.value.self)
              && r.value.peers == Peers(workers, pid)
              && r.value.running
              && (r.value.sink.Socket? <==> monitorUp)
              && (r.value.sink.Socket? ==> !r.value.sink.closed)
  {
    match FindSelf(workers, pid)
    case None => Failure(NotFoundText(pid))
    case Some(self) =>
      PeersExcludeSelf(workers, pid);
      Success(Node(pid, Initial, self, Peers(workers, pid),
                   if monitorUp then Socket(false) else NoSocket, true))
  }

  /** `log(text)` as a step: one printed line stamped with the current clock; only the sink may change. */
  function Emit(n: Node, text: string, replies: SinkReplies): (r: Outcome)
    ensures r.node == n.(sink := r.node.sink)
    ensures |r.local| == 1 && ParseLine(r.local[0]) == Some(Record(n.id, n.clock.value, text))
    ensures r.node.sink == Forward(n.sink, replies).sink
    ensures r.remote == (if Forward(n.sink, replies).delivered then [r.local[0] + "\n"] else [])
    ensures r.sent.None?
  {
    var e := Log(n.id, n.clock, n.sink, text, replies);
    Outcome(n.(sink := e.sink), [e.local], e.remote, None)
  }

  /**
   * `handle_peer_message`: a well-formed payload is merged into the clock and
   * logged; an empty one is ignored silently; anything else prints one error
   * line and leaves the node as it was.
   */
  function HandlePeerMessage(n: Node, payload: Payload, replies: SinkReplies): (r: Outcome)
    ensures r.sent.None?
    ensures r.node.(clock := n.clock, sink := n.sink) == n
    ensures WellFormed(payload) ==>
              && r.node.clock.value > n.clock.value
              && r.node.clock.value > payload.clock.value
              && (r.node.clock.value == n.clock.value + 1 || r.node.clock.value == payload.clock.value + 1)
    ensures WellFormed(payload) ==>
              |r.local| == 1 &&
              ParseLine(r.local[0]) ==
                Some(Record(n.id, r.node.clock.value, ReceivedText(payload.pid.value, payload.clock.value)))
    ensures !WellFormed(payload) ==>
              r.node == n && r.remote == [] && |r.local| == (if payload.Empty? then 0 else 1)
    ensures payload.Garbled? ==> r.local == [ErrorLine(n.id, payload.reason)]
    ensures payload.Fields? && payload.clock.None? ==> r.local == [ErrorLine(n.id, MissingKey("clock"))]
    ensures payload.Fields? && payload.clock.Some? && payload.pid.None? ==>
              r.local == [ErrorLine(n.id, MissingKey("pid"))]
  {
    match payload
    case Empty => Outcome(n, [], [], None)
    case Garbled(reason) => Outcome(n, [ErrorLine(n.id, reason)], [], None)
    case Fields(None, _) => Outcome(n, [ErrorLine(n.id, MissingKey("clock"))], [], None)
    case Fields(Some(_), None) => Outcome(n, [ErrorLine(n.id, MissingKey("pid"))], [], None)
    case Fields(Some(received), Some(sender)) =>
      var merged := n.(clock := Update(n.clock, received).clock);
      Emit(merged, ReceivedText(sender, received), replies)
  }

  /** `choice` is an index `random.choice` could pick from the peer table. */
  predicate CanChoose(n: Node, choice: nat) {
    |n.peers| == 0 || choice < |n.peers|
  }

  /**
   * `send_message`: with no peers nothing happens. Otherwise the chosen peer is
   * the target, the clock is incremented before the message is built, the
   * message carries the node's id and the incremented value, and the increment
   * stays whether or not the transmission succeeds.
   */
  function SendMessage(n: Node, choice: nat, transmission: Transmission, replies: SinkReplies): (r: Outcome)
    requires CanChoose(n, choice)
    ensures |n.peers| == 0 ==> r == Outcome(n, [], [], None)
    ensures |n.peers| > 0 ==> r.node.clock.value == n.clock.value + 1
    ensures r.node.(clock := n.clock, sink := n.sink) == n
    ensures r.sent.Some? <==> |n.peers| > 0 && transmission.Transmitted?
    ensures r.sent.Some? ==>
              && r.sent.value.to == n.peers[choice]
              && r.sent.value.msg == Message(n.id, r.node.clock.value)
    ensures r.sent.Some? && Valid(n) ==> r.sent.value.to.id != n.id
    ensures |n.peers| > 0 ==>
              |r.local| == 1 &&
              ParseLine(r.local[0]) ==
                Some(Record(n.id, r.node.clock.value,
                            match transmission
                            case Transmitted => SentText(n.peers[choice].id)
                            case Refused(reason) => FailedText(n.peers[choice].id, reason)))
  {
    if |n.peers| == 0 then Outcome(n, [], [], None)
    else
      var target := n.peers[choice];
      var ticked := n.(clock := Increment(n.clock).clock);
      match transmission
      case Transmitted =>
        var msg := Message(n.id, GetTime(ticked.clock).time);
        Emit(ticked, SentText(target.id), replies).(sent := Some(Envelope(target, msg)))
      case Refused(reason) =>
        Emit(ticked, FailedText(target.id, reason), replies)
  }

  /** An internal event: one increment, then one log line. */
  function InternalEvent(n: Node, replies: SinkReplies): (r: Outcome)
    ensures r.node.clock.value == n.clock.value + 1
    ensures r.node.(clock := n.clock, sink := n.sink) == n
    ensures r.sent.None?
    ensures |r.local| == 1 && ParseLine(r.local[0]) == Some(Record(n.id, r.node.clock.value, InternalText))
  {
    Emit(n.(clock := Increment(n.clock).clock), InternalText, replies)
  }

  /** The two things one iteration of the main loop can do. */
  datatype Action = Internal | Send

  /**
   * One iteration of the main loop after its sleep: an internal event or a
   * send. The clock moves by exactly one, except for a send with no peers,
   * which leaves it alone.
   */
  function ActivityStep(n: Node, action: Action, choice: nat, transmission: Transmission, replies: SinkReplies): (r: Outcome)
    requires CanChoose(n, choice)
    ensures r.node.clock.value == n.clock.value + (if action.Send? && |n.peers| == 0 then 0 else 1)
    ensures r.node.(clock := n.clock, sink := n.sink) == n
    ensures r.sent.Some? ==> action.Send? && |n.peers| > 0
    ensures r.sent.Some? ==> r.sent.value.to in n.peers && r.sent.value.msg == Message(n.id, r.node.clock.value)
  {
    match action
    case Internal => InternalEvent(n, replies)
    case Send => SendMessage(n, choice, transmission, replies)
  }

  /** The start-up log line of `run`. */
  function Start(n: Node, replies: SinkReplies): (r: Outcome)
    ensures r.node == n.(sink := r.node.sink)
    ensures r.sent.None?
    ensures |r.local| == 1 && ParseLine(r.local[0]) == Some(Record(n.id, n.clock.value, StartedText))
  {
    Emit(n, StartedText, replies)
  }

  /**
   * Shutdown on interrupt: the loop stops, the shutdown line is logged, and then
   * an existing monitor socket is closed. The socket object is kept, so it is
   * still present, though closed, for any later log call.
   */
  function Shutdown(n: Node, replies: SinkReplies): (r: Outcome)
    ensures !r.node.running
    ensures r.node == n.(running := false, sink := r.node.sink)
    ensures r.sent.None?
    ensures r.node.sink.NoSocket? || r.node.sink == Socket(true)
    ensures r.node.sink.NoSocket? <==> Forward(n.sink, replies).sink.NoSocket?
    ensures |r.local| == 1 && ParseLine(r.local[0]) == Some(Record(n.id, n.clock.value, ShutdownText))
  {
    var o := Emit(n.(running := false), ShutdownText, replies);
    o.(node := o.node.(sink := if o.node.sink.Socket? then Socket(true) else NoSocket))
  }

  /** The steps a node can take, with the choices and network answers each one depends on. */
  datatype NodeStep =
    | Act(action: Action, choice: nat, transmission: Transmission, replies: SinkReplies)
    | Receive(payload: Payload, replies: SinkReplies)
    | Begin(replies: SinkReplies)
    | Stop(replies: SinkReplies)

  /** The step can be taken; the main loop only acts while running. */
  predicate CanTake(n: Node, s: NodeStep) {
    s.Act? ==> n.running && CanChoose(n, s.choice)
  }

  function Take(n: Node, s: NodeStep): Outcome
    requires CanTake(n, s)
  {
    match s
    case Act(action, choice, transmission, replies) => ActivityStep(n, action, choice, transmission, replies)
    case Receive(payload, replies) => HandlePeerMessage(n, payload, replies)
    case Begin(replies) => Start(n, replies)
    case Stop(replies) => Shutdown(n, replies)
  }

  /** The node after a series of steps, or `None` if some step could not be taken. */
  function RunNode(n: Node, steps: seq<NodeStep>): Option<Node>
    decreases |steps|
  {
    if |steps| == 0 then Some(n)
    else if !CanTake(n, steps[0]) then None
    else RunNode(Take(n, steps[0]).node, steps[1..])
  }

  /**
   * The step advances the clock: an internal event, a send with peers, or a
   * well-formed message received.
   */
  predicate Ticks(n: Node, s: NodeStep) {
    || (s.Act? && (s.action.Internal? || |n.peers| > 0))
    || (s.Receive? && WellFormed(s.payload))
  }

  /** The number of steps in `steps` that advance the clock of a node with the peer table of `n`. */
  function TickCount(n: Node, steps: seq<NodeStep>): nat
    decreases |steps|
  {
    if |steps| == 0 then 0
    else (if Ticks(n, steps[0]) then 1 else 0) + TickCount(n, steps[1..])
  }

  /** Counting ticks depends only on the peer table. */
  lemma {:induction false} TickCountByPeers(n: Node, m: Node, steps: seq<NodeStep>)
    requires n.peers == m.peers
    ensures TickCount(n, steps) == TickCount(m, steps)
    decreases |steps|
  {
    if |steps| > 0 {
      TickCountByPeers(n, m, steps[1..]);
    }
  }

  /**
   * Over any run the node keeps its id and peer table, stays valid, and its
   * clock never goes down: it grows by at least one for every step that ticks.
   */
  lemma {:induction false} RunNodeAdvances(n: Node, steps: seq<NodeStep>)
    ensures RunNode(n, steps).Some? ==> RunNode(n, steps).value.id == n.id
    ensures RunNode(n, steps).Some? ==> RunNode(n, steps).value.peers == n.peers
    ensures RunNode(n, steps).Some? && Valid(n) ==> Valid(RunNode(n, steps).value)
    ensures RunNode(n, steps).Some? ==> RunNode(n, steps).value.clock.value >= n.clock.value + TickCount(n, steps)
    decreases |steps|
  {
    if |steps| > 0 && CanTake(n, steps[0]) {
      var o := Take(n, steps[0]);
      assert o.node.id == n.id && o.node.peers == n.peers && o.node.self == n.self;
      RunNodeAdvances(o.node, steps[1..]);
      TickCountByPeers(n, o.node, steps[1..]);
    }
  }

  /** Once stopped, a node's main loop takes no further action. */
  lemma StoppedNodeDoesNotAct(n: Node, replies: SinkReplies, s: NodeStep)
    requires s.Act?
    ensures !CanTake(Shutdown(n, replies).node, s)
  {
  }

  /** The configuration of the two-worker scenario below. */
  const ScenarioWorkers: seq<WorkerEntry> := [WorkerEntry(1, "localhost", 5001), WorkerEntry(2, "localhost", 5002)]

  /** In the scenario configuration each worker starts at 0 with the other as its only peer. */
  lemma ScenarioConstruction()
    ensures NewWorker(1, ScenarioWorkers, false) ==
              Success(Node(1, Initial, ScenarioWorkers[0], [ScenarioWorkers[1]], NoSocket, true))
    ensures NewWorker(2, ScenarioWorkers, false) ==
              Success(Node(2, Initial, ScenarioWorkers[1], [ScenarioWorkers[0]], NoSocket, true))
  {
    var ws := ScenarioWorkers;
    assert FindSelf(ws, 1) == Some(ws[0]);
    assert FindSelf(ws[1..], 2) == Some(ws[1]);
    assert Peers(ws[1..], 1) == [ws[1]];
    assert Peers(ws[1..], 2) == [];
    assert FindSelf(ws, 2) == Some(ws[1]);
    assert Peers(ws, 2) == [ws[0]];
  }

  /**
   * Two workers start at clock 0. Worker 1 sends to worker 2: it increments
   * first, so the message carries 1. Worker 2 merges it to max(0, 1) + 1 = 2,
   * and an internal event then takes it to 3, which its log line shows.
   */
  lemma TwoWorkerScenario(replies: SinkReplies)
    ensures
      var w1 := Node(1, Initial, ScenarioWorkers[0], [ScenarioWorkers[1]], NoSocket, true);
      var w2 := Node(2, Initial, ScenarioWorkers[1], [ScenarioWorkers[0]], NoSocket, true);
      var sent := SendMessage(w1, 0, Transmitted, replies);
      var received := HandlePeerMessage(w2, Delivered(sent.sent.value.msg), replies);
      var internal := InternalEvent(received.node, replies);
      && sent.node.clock.value == 1
      && sent.sent.value == Envelope(ScenarioWorkers[1], Message(1, 1))
      && received.node.clock.value == 2
      && internal.node.clock.value == 3
      && ParseLine(internal.local[0]) == Some(Record(2, 3, InternalText))
  {
  }
}

=== FILE: wrappers.dfy ===
/** Failure-carrying datatypes shared by the other modules. */
module Wrappers {

  /** A value that may be absent: the model's stand-in for Python's `None`. */
  datatype Option<+T> = None | Some(value: T)

  /** The outcome of an operation that can raise: a value, or the text of the error. */
  datatype Result<+R, +E> = Success(value: R) | Failure(error: E)
}
